=== FILE: README.md ===
# GKE target derivation and the manual-approval gate

This project models two pieces of decision logic from a release-dispatch system.

1. **GKE target derivation.** Data from Google Kubernetes Engine becomes canonical target
   records. Each cluster yields one `KubernetesAPI` target. Its label map is built in layers:
   - computed labels (console URL, project, location, versions, node count, …);
   - absent values dropped;
   - the cluster's own resource labels on top.

   Each namespace with metadata, of a cluster whose namespaces were listed, yields one
   `KubernetesNamespace` target; a namespace without metadata yields none. The target is
   the cluster target merged with a namespace overlay, and the namespace's labels win.

   The scan (`getGkeTargets`) combines these:
   - it drops project listings that failed;
   - it emits every cluster target;
   - it absorbs a failed namespace listing;
   - it lists all cluster targets before all namespace targets.

   Every call to Google or Kubernetes is an input value, already settled:
   - each project listing is `Ok(clusters)` or `Err`;
   - each cluster's connection is `ConnectFailed` or `Connected(listing)`, where `listing` is `Ok(namespaces)` or `Err`.

   Semantic-version parsing belongs to a library. It is a parameter `parse: string -> Option<SemVer>`, and `None` stands for the constructor throwing.

2. **Approval gate** (`createJobExecutionApprovals`). The tables are sequences of rows:
   triggers, releases, environments, policies and existing approvals. The gate computes each
   distinct `(releaseId, policyId)` pair that is reached through:
   - a trigger for a release named by the job configurations;
   - an environment that is not deleted;
   - a policy whose approval requirement is `manual`.

   The result is `None` when no pair qualifies, meaning no write. Otherwise it is the approval rows to insert, one per pair.

Modules: `Outcomes` (optional values, settled outcomes), `Decimal` (`String(n)` for
naturals), `Labels` (overlay and `omitNullUndefined`), `Gke` (`clusterToTarget` and the
namespace merge), `GkeScan` (`getGkeTargets`), `PolicyGate` (`createJobExecutionApprovals`).

Three behaviours of the code are worth stating plainly:
- **Version fallback.** A missing version is parsed as the text `"0"` (apps/provider/src/google.ts:84-85), and that parse may fail. A parse failure while building the cluster targets rejects the whole scan.
- **Connection failures.** The connection to a cluster is made before the guarded block (apps/provider/src/google.ts:168-176). Its failure rejects the joined promise and so the whole scan. Only a failed namespace listing is absorbed.
- **Approval idempotency.** Approval creation neither reads nor checks the existing approvals (packages/job-dispatch/src/policy-create.ts:18-42). A second call with the same input inserts the same rows again.

## Model

| member | source | states |
|---|---|---|
| Decimal.NatToString | apps/provider/src/google.ts:118-128 | `String(n)` of a node count or version component is a non-empty string of decimal digits with no leading zero; 0 is rendered as exactly `"0"` |
| Decimal.DecimalRoundTrip | apps/provider/src/google.ts:121-128 | the decimal text used for a version component reads back as the same number, so distinct components get distinct labels |
| Decimal.NatToStringInjective | apps/provider/src/google.ts:121-128 | two version components get the same label text exactly when they are equal |
| Labels.OmitAbsentOverlay | apps/provider/src/google.ts:106-133 | spreading present labels after possibly-absent computed entries and then dropping absent values equals dropping first and overlaying the labels on top |
| Gke.ClusterToTarget | apps/provider/src/google.ts:78-135 | fails exactly when the master or node version text (`"0"` when missing) does not parse; otherwise identifier is `project/name`, kind `KubernetesAPI`, version `kubernetes/v1`, workspace and provider as given, name is cluster name, else id, else empty |
| Gke.ClusterLabelsLayering | apps/provider/src/google.ts:106-133 | a cluster's label map is the present computed labels overlaid by its resource labels |
| Gke.ProjectAndDistributionEntries | apps/provider/src/google.ts:110-116 | the object literal gives `google/project` the project and `kubernetes/distribution` the text `gke` |
| Gke.MasterVersionEntries | apps/provider/src/google.ts:120-123 | the object literal gives the master version keys the parsed version text and the decimal major, minor and patch |
| Gke.NodeVersionEntries | apps/provider/src/google.ts:125-128 | the object literal gives the node version keys the parsed node version text and its decimal major, minor and patch |
| Gke.ClusterTargetLabels | apps/provider/src/google.ts:106-133 | every resource label appears with its own value; every other present computed entry keeps its value; no other key appears |
| Gke.ProjectAndDistributionLabels | apps/provider/src/google.ts:106-133 | `google/project` is the project and `kubernetes/distribution` is `gke` unless a resource label replaces them |
| Gke.MasterVersionLabels | apps/provider/src/google.ts:84-123 | the master version labels hold the parsed version text and the decimal major, minor and patch of the master version (default `"0"`) unless a resource label replaces them |
| Gke.NodeVersionLabels | apps/provider/src/google.ts:85-128 | the node version labels hold the parsed version text and the decimal major, minor and patch of the independently parsed node version |
| Gke.MergeNamespace | apps/provider/src/google.ts:182-200 | a namespace target has kind `KubernetesNamespace`, identifier `project/cluster/ns` and name `cluster/ns`. It keeps the cluster target's workspace, provider and version, and its config gains the namespace. Its labels are cluster labels, then namespace labels, then `kubernetes/namespace = ns`, with later layers winning |
| GkeScan.Fulfilled | apps/provider/src/google.ts:144-153 | every fulfilled project listing is kept and nothing else is; together they hold as many clusters as the fulfilled listings of the input |
| GkeScan.Flatten | apps/provider/src/google.ts:155-161 | every cluster of every kept listing appears, paired with its project; nothing else appears; each appears exactly as often as the kept listings hold it, so a listing kept twice contributes its clusters twice |
| GkeScan.ListedClustersFromInput | apps/provider/src/google.ts:144-161 | a (project, cluster) pair is worked on exactly when the project's listing was fulfilled and contains the cluster; each pair is worked on as often as the fulfilled listings of the input hold it |
| GkeScan.ClusterTargets | apps/provider/src/google.ts:155-161 | one cluster target per listed cluster, in order; a single throw rejects the list |
| GkeScan.WithMetadata | apps/provider/src/google.ts:179-180 | exactly the namespaces that carry metadata are kept, each metadata as often as its namespace is listed |
| GkeScan.MergeAll | apps/provider/src/google.ts:181-202 | one namespace target per namespace with metadata, in listing order: the target at each position is the cluster target merged with that position's namespace |
| GkeScan.ClusterNamespaceTargets | apps/provider/src/google.ts:166-208 | no namespace targets for a cluster without a name or location, or whose namespace listing failed. The cluster's task is rejected exactly when it has a name and location and the connection failed. Every target produced is a namespace target |
| GkeScan.ListedNamespacesBecomeTargets | apps/provider/src/google.ts:176-202 | for a connected cluster with a namespace listing, every namespace with metadata yields its merged target, every target comes from such a namespace, and there are exactly as many targets as namespaces with metadata |
| GkeScan.JoinAll | apps/provider/src/google.ts:163-212 | joining settled tasks is rejected exactly when some task is rejected; otherwise it holds every task's results and nothing else, each exactly as often as the tasks hold it together, so a result repeated across tasks is repeated |
| GkeScan.NamespaceTargets | apps/provider/src/google.ts:163-212 | the joined namespace targets succeed exactly when every cluster's task succeeds. They contain every cluster's targets and nothing that is not some cluster's target, and each target occurs exactly as often as the clusters' tasks hold it together |
| GkeScan.GkeTargets | apps/provider/src/google.ts:137-215 | the scan succeeds exactly when both the cluster targets and the namespace tasks succeed. Its output is the cluster targets followed by the namespace targets |
| GkeScan.ScanSucceedsIff | apps/provider/src/google.ts:155-212 | the scan succeeds exactly when every listed cluster's versions parse and every listed cluster with a name and location was connected to. Failed project listings and failed namespace listings never make it fail |
| GkeScan.ClusterTargetsFirst | apps/provider/src/google.ts:155-214 | the first outputs are the cluster targets, one per listed cluster (as many as the fulfilled listings hold), with identifier `project/name`; an output is a cluster target exactly when it comes before that boundary |
| GkeScan.FailedProjectContributesNothing | apps/provider/src/google.ts:144-153 | inserting a project whose listing failed anywhere in the input leaves the scan's result unchanged |
| GkeScan.ClusterTargetEmitted | apps/provider/src/google.ts:155-161 | every cluster of every fulfilled project appears as a cluster target with identifier `project/name`, whatever happened to its namespaces |
| GkeScan.ConnectionFailureRejectsScan | apps/provider/src/google.ts:163-176 | a failed connection to a cluster with a name and location rejects the whole scan |
| GkeScan.NamespaceTargetEmitted | apps/provider/src/google.ts:176-202 | each namespace with metadata, of a connected cluster whose listing succeeded, appears after the cluster targets as its merged namespace target |
| GkeScan.NamespaceTargetOrigin | apps/provider/src/google.ts:166-212 | every output after the cluster targets is the merged target of a namespace with metadata of a fulfilled project's cluster that has a name and location, was connected to and had its namespaces listed; so unaddressable clusters, failed namespace listings and namespaces without metadata contribute nothing |
| PolicyGate.RequestedReleaseIds | packages/job-dispatch/src/policy-create.ts:32 | a release id is requested exactly when some job configuration carries it; configurations without a release contribute nothing |
| PolicyGate.AllPairsQualify | packages/job-dispatch/src/policy-create.ts:18-33 | collecting pairs trigger by trigger over the whole store finds exactly the pairs that join through a live environment to a manual policy for a requested release |
| PolicyGate.SelectApprovalPairs | packages/job-dispatch/src/policy-create.ts:18-33 | the distinct-on query yields each qualifying (release, policy) pair exactly once and no other pair. Any trigger in the store counts, not only those of the batch |
| PolicyGate.CreateJobExecutionApprovals | packages/job-dispatch/src/policy-create.ts:14-43 | no write exactly when no pair qualifies. Otherwise the rows are distinct, each is `{policyId, releaseId}` of a qualifying pair, every qualifying pair has its row, and every row's policy is manual |
| PolicyGate.NullReleaseIdsIgnored | packages/job-dispatch/src/policy-create.ts:32 | a job configuration without a release changes nothing, and only releases named by the configurations qualify |
| PolicyGate.ApplyInsert | packages/job-dispatch/src/policy-create.ts:35-42 | an insert adds exactly its rows to the approvals table, one occurrence per row, and leaves every other table unchanged; no insert leaves the table as it was |
| PolicyGate.RepeatedCall | packages/job-dispatch/src/policy-create.ts:14-43 | a second call after the first call's insert inserts exactly the same rows, so each is then held at least twice: the operation is not idempotent |
| PolicyGate.RepeatedCallReinserts | packages/job-dispatch/src/policy-create.ts:37-42 | the query ignores existing approvals, so after an insert the same pairs qualify again, and a second identical insert holds each row at least twice |

## Left out

- Google and Kubernetes clients, credential exchange and kubeconfig construction (apps/provider/src/google.ts:13-76). These are network I/O. The results of the listing and connection calls are the settled inputs described above.
- GkeScan.GkeTargets: the cluster client is assumed to be created successfully. In the source, `getGkeTargets` first awaits `getGoogleClusterClient` (apps/provider/src/google.ts:142), which awaits the source credentials' client when a service account is given (apps/provider/src/google.ts:20-22). If that rejects, the whole scan rejects before any project is listed; no input of the model carries that outcome.
- Concurrency of `Promise.allSettled` and `Promise.all`. The joins are sequential maps over outcome lists, which preserve their order. A rejection carries no reason, because the code never inspects one.
- The semantic-version parser, lodash `merge` and `omitNullUndefined`. These are foreign code, abstracted as follows:
  - a parser parameter that may fail;
  - a right-biased map overlay, with label values treated as scalar strings, so nested or array values are not merged;
  - a filter that drops absent values.
- A `null` cluster list (`clusters ?? []`) is supplied as an empty list.
- The label `google/autopilot` holds a boolean in the source. Label values are strings here, so it is `"true"` or `"false"`.
- Namespace names are modelled as always present, since Kubernetes requires them.
- Gke.Render: an absent cluster field is rendered in text as `undefined`. The cluster fields may also be `null`, which a template literal renders as `null` (for example an identifier `project/null`). The model does not tell null from undefined.
- The console URL and endpoint are plain string concatenations. The cluster status is an opaque optional string.
- The logging of a failed namespace listing.
- The database transaction and the SQL builder. The tables are in-memory sequences, and the insert is the returned row list.
- Any uniqueness constraint on the approvals table is not modelled; the database schema is not part of this model. With such a constraint, the second insert in `RepeatedCall` would fail instead of duplicating rows.
- Filtering by an empty release-id list matches nothing here. Some versions of the SQL builder throw on an empty list instead.
- The active-jobs route, force release and target upsert. No source for them is part of this model.
- The generated SDK model (packages/node-sdk/src/models/GetJob200ResponseEnvironment.ts) and the web UI files. They contain no decision logic.

=== FILE: decimal.dfy ===
/** Decimal rendering of natural numbers, as JavaScript's `String(n)` does for a
    non-negative integral number, together with the reading back that shows the
    rendering loses nothing.
 */
module Decimal {

  predicate IsDigit(c: char) {
    '0' <= c <= '9'
  }

  predicate AllDigits(s: string) {
    forall i :: 0 <= i < |s| ==> IsDigit(s[i])
  }

  function DigitChar(d: nat): (c: char)
    requires d < 10
    ensures IsDigit(c)
    ensures c as int - '0' as int == d
  {
    ('0' as int + d) as char
  }

  function DigitValue(c: char): (d: nat)
    requires IsDigit(c)
    ensures d < 10
  {
    c as int - '0' as int
  }

  /** `String(n)`: the shortest decimal numeral of `n`. */
  function NatToString(n: nat): (s: string)
    ensures |s| >= 1
    ensures AllDigits(s)
    ensures s[0] == '0' ==> n == 0
    ensures s[0] == '0' ==> s == "0"
    ensures n == 0 ==> s == "0"
    decreases n
  {
    if n < 10 then [DigitChar(n)] else NatToString(n / 10) + [DigitChar(n % 10)]
  }

  /** The number a string of decimal digits denotes. */
  function DecimalValue(s: string): nat
    requires AllDigits(s)
    decreases |s|
  {
    if s == [] then 0 else DecimalValue(s[..|s| - 1]) * 10 + DigitValue(s[|s| - 1])
  }

  /** Reading the numeral back gives the number rendered. */
  lemma {:induction false} DecimalRoundTrip(n: nat)
    ensures DecimalValue(NatToString(n)) == n
    decreases n
  {
    if n >= 10 {
      var s := NatToString(n / 10);
      var t := s + [DigitChar(n % 10)];
      assert t[..|t| - 1] == s;
      DecimalRoundTrip(n / 10);
    }
  }

  /** Distinct numbers get distinct labels. */
  lemma NatToStringInjective(a: nat, b: nat)
    ensures NatToString(a) == NatToString(b) <==> a == b
  {
    DecimalRoundTrip(a);
    DecimalRoundTrip(b);
  }
}

=== FILE: gke.dfy ===
/** Derivation of canonical target records from Google Kubernetes Engine data:
    one `KubernetesAPI` target per cluster and one `KubernetesNamespace` target per
    namespace, the latter inheriting the former's labels.

    The cluster descriptor is the provider's record with every optional field kept
    optional. Semantic-version parsing is a foreign library; it is a parameter here
    that may fail, and a failure stands for the library's constructor throwing.
 */
module Gke {
  import opened Outcomes
  import opened Labels
  import opened Decimal

  /** What a parsed semantic version exposes: its components and its normalised text. */
  datatype SemVer = SemVer(major: nat, minor: nat, patch: nat, version: string)

  /** `new SemVer(text)`: `None` when the constructor throws. */
  type VersionParser = string -> Option<SemVer>

  datatype Cluster = Cluster(
    name: Option<string>,
    id: Option<string>,
    location: Option<string>,
    selfLink: Option<string>,
    status: Option<string>,
    endpoint: Option<string>,
    caCertificate: Option<string>,
    currentMasterVersion: Option<string>,
    currentNodeVersion: Option<string>,
    currentNodeCount: Option<nat>,
    autopilotEnabled: Option<bool>,
    nodeAutoprovisioning: Option<bool>,
    resourceLabels: Option<Labels>)

  /** The target's structured configuration; `namespace` is set only on namespace targets. */
  datatype TargetConfig = TargetConfig(
    name: Option<string>,
    status: Option<string>,
    certificateAuthorityData: Option<string>,
    endpoint: string,
    namespace: Option<string>)

  datatype Target = Target(
    workspaceId: string,
    name: string,
    providerId: string,
    identifier: string,
    version: string,
    kind: string,
    config: TargetConfig,
    labels: Labels)

  /** A namespace as listed by the Kubernetes API; `metadata` may be missing. */
  datatype NamespaceMeta = NamespaceMeta(name: string, labels: Option<Labels>)
  datatype Namespace = Namespace(metadata: Option<NamespaceMeta>)

  const ApiKind := "KubernetesAPI"
  const NamespaceKind := "KubernetesNamespace"
  const TargetVersion := "kubernetes/v1"
  /** Version text parsed when the cluster reports none. */
  const DefaultVersion := "0"
  const NamespaceLabel := "kubernetes/namespace"

  /** A field interpolated into a template literal: an absent one reads "undefined". */
  function Render(v: Option<string>): string {
    v.GetOr("undefined")
  }

  function BoolString(b: bool): string {
    if b then "true" else "false"
  }

  /** `cluster.name ?? cluster.id ?? ""`. */
  function DisplayName(c: Cluster): string {
    c.name.GetOr(c.id.GetOr(""))
  }

  function ConsoleUrl(project: string, c: Cluster): string {
    "https://console.cloud.google.com/kubernetes/clusters/details/" + Render(c.location) + "/"
    + Render(c.name) + "/details?project=" + project
  }

  /** The version text handed to the parser: the reported one, or the default. */
  function MasterVersionText(c: Cluster): string {
    c.currentMasterVersion.GetOr(DefaultVersion)
  }

  function NodeVersionText(c: Cluster): string {
    c.currentNodeVersion.GetOr(DefaultVersion)
  }

  /** The keys of the computed label entries, as the object literal lists them. */
  const ComputedKeys: set<string> := {
    "ctrlplane/url",
    "google/self-link",
    "google/project",
    "google/location",
    "google/autopilot",
    "kubernetes/cluster-name",
    "kubernetes/cluster-id",
    "kubernetes/distribution",
    "kubernetes/status",
    "kubernetes/node-count",
    "kubernetes/master-version",
    "kubernetes/master-version-major",
    "kubernetes/master-version-minor",
    "kubernetes/master-version-patch",
    "kubernetes/node-version",
    "kubernetes/node-version-major",
    "kubernetes/node-version-minor",
    "kubernetes/node-version-patch",
    "kubernetes/autoscaling-enabled"
  }

  /** The value the object literal gives one key; a key it does not list has none. */
  function ComputedLabel(key: string, project: string, c: Cluster, master: SemVer, node: SemVer): Option<string> {
    match key
    case "ctrlplane/url" => Some(ConsoleUrl(project, c))
    case "google/self-link" => c.selfLink
    case "google/project" => Some(project)
    case "google/location" => c.location
    case "google/autopilot" => (if c.autopilotEnabled.Some? then Some(BoolString(c.autopilotEnabled.value)) else None)
    case "kubernetes/cluster-name" => c.name
    case "kubernetes/cluster-id" => c.id
    case "kubernetes/distribution" => Some("gke")
    case "kubernetes/status" => c.status
    case "kubernetes/node-count" => Some(if c.currentNodeCount.Some? then NatToString(c.currentNodeCount.value) else "unknown")
    case "kubernetes/master-version" => Some(master.version)
    case "kubernetes/master-version-major" => Some(NatToString(master.major))
    case "kubernetes/master-version-minor" => Some(NatToString(master.minor))
    case "kubernetes/master-version-patch" => Some(NatToString(master.patch))
    case "kubernetes/node-version" => Some(node.version)
    case "kubernetes/node-version-major" => Some(NatToString(node.major))
    case "kubernetes/node-version-minor" => Some(NatToString(node.minor))
    case "kubernetes/node-version-patch" => Some(NatToString(node.patch))
    case "kubernetes/autoscaling-enabled" => Some(BoolString(c.nodeAutoprovisioning.GetOr(false)))
    case _ => None
  }

  /** The computed label entries, one per key of the object literal, before absent
      values are dropped. */
  function ComputedLabels(project: string, c: Cluster, master: SemVer, node: SemVer): map<string, Option<string>> {
    map key | key in ComputedKeys :: ComputedLabel(key, project, c, master, node)
  }

  /** The object literal with the resource labels spread last, after `omitNullUndefined`. */
  function ClusterLabels(project: string, c: Cluster, master: SemVer, node: SemVer): Labels {
    OmitAbsent(ComputedLabels(project, c, master, node) + Present(c.resourceLabels.GetOr(map[])))
  }

  /** The cluster's own resource labels form the top layer over the computed ones. */
  lemma ClusterLabelsLayering(project: string, c: Cluster, master: SemVer, node: SemVer)
    ensures ClusterLabels(project, c, master, node)
         == Overlay(OmitAbsent(ComputedLabels(project, c, master, node)), c.resourceLabels.GetOr(map[]))
  {
    OmitAbsentOverlay(ComputedLabels(project, c, master, node), c.resourceLabels.GetOr(map[]));
  }

  /** `clusterToTarget`: fails exactly when one of the two version texts does not parse. */
  function ClusterToTarget(workspaceId: string, providerId: string, project: string, c: Cluster, parse: VersionParser): (r: Outcome<Target>)
    ensures r.Ok? <==> parse(MasterVersionText(c)).Some? && parse(NodeVersionText(c)).Some?
    ensures r.Ok? ==>
      && r.value.identifier == project + "/" + Render(c.name)
      && r.value.kind == ApiKind
      && r.value.version == TargetVersion
      && r.value.workspaceId == workspaceId
      && r.value.providerId == providerId
      && r.value.config.namespace.None?
    ensures r.Ok? && c.name.Some? ==> r.value.name == c.name.value
    ensures r.Ok? && c.name.None? && c.id.Some? ==> r.value.name == c.id.value
    ensures r.Ok? && c.name.None? && c.id.None? ==> r.value.name == ""
  {
    var master := parse(MasterVersionText(c));
    var node := parse(NodeVersionText(c));
    if master.None? || node.None? then Err
    else
      Ok(Target(
        workspaceId := workspaceId,
        name := DisplayName(c),
        providerId := providerId,
        identifier := project + "/" + Render(c.name),
        version := TargetVersion,
        kind := ApiKind,
        config := TargetConfig(c.name, c.status, c.caCertificate, "https://" + Render(c.endpoint), None),
        labels := ClusterLabels(project, c, master.value, node.value)))
  }

  // What the label map of a cluster target promises: resource labels win every
  // collision; the project and distribution labels are always there unless a
  // resource label replaces them; the version labels carry the decimal components
  // of the independently parsed master and node versions. The entry lemmas read
  // single computed entries; the label lemmas lift them to the target.

  /** The project and distribution entries of the computed labels. */
  lemma ProjectAndDistributionEntries(project: string, c: Cluster, master: SemVer, node: SemVer)
    ensures var computed := ComputedLabels(project, c, master, node);
            && "google/project" in computed && computed["google/project"] == Some(project)
            && "kubernetes/distribution" in computed && computed["kubernetes/distribution"] == Some("gke")
  {
    assert ComputedLabel("google/project", project, c, master, node) == Some(project);
    assert ComputedLabel("kubernetes/distribution", project, c, master, node) == Some("gke");
  }

  /** The master version entries of the computed labels. */
  lemma MasterVersionEntries(project: string, c: Cluster, master: SemVer, node: SemVer)
    ensures var computed := ComputedLabels(project, c, master, node);
            && "kubernetes/master-version" in computed && computed["kubernetes/master-version"] == Some(master.version)
            && "kubernetes/master-version-major" in computed && computed["kubernetes/master-version-major"] == Some(NatToString(master.major))
            && "kubernetes/master-version-minor" in computed && computed["kubernetes/master-version-minor"] == Some(NatToString(master.minor))
            && "kubernetes/master-version-patch" in computed && computed["kubernetes/master-version-patch"] == Some(NatToString(master.patch))
  {
    assert ComputedLabel("kubernetes/master-version", project, c, master, node) == Some(master.version);
    assert ComputedLabel("kubernetes/master-version-major", project, c, master, node) == Some(NatToString(master.major));
    assert ComputedLabel("kubernetes/master-version-minor", project, c, master, node) == Some(NatToString(master.minor));
    assert ComputedLabel("kubernetes/master-version-patch", project, c, master, node) == Some(NatToString(master.patch));
  }

  /** The node version entries of the computed labels. */
  lemma NodeVersionEntries(project: string, c: Cluster, master: SemVer, node: SemVer)
    ensures var computed := ComputedLabels(project, c, master, node);
            && "kubernetes/node-version" in computed && computed["kubernetes/node-version"] == Some(node.version)
            && "kubernetes/node-version-major" in computed && computed["kubernetes/node-version-major"] == Some(NatToString(node.major))
            && "kubernetes/node-version-minor" in computed && computed["kubernetes/node-version-minor"] == Some(NatToString(node.minor))
            && "kubernetes/node-version-patch" in computed && computed["kubernetes/node-version-patch"] == Some(NatToString(node.patch))
  {
    assert ComputedLabel("kubernetes/node-version", project, c, master, node) == Some(node.version);
    assert ComputedLabel("kubernetes/node-version-major", project, c, master, node) == Some(NatToString(node.major));
    assert ComputedLabel("kubernetes/node-version-minor", project, c, master, node) == Some(NatToString(node.minor));
    assert ComputedLabel("kubernetes/node-version-patch", project, c, master, node) == Some(NatToString(node.patch));
  }

  /** The label map of a cluster target is the computed entries that carry a value,
      overlaid by the cluster's resource labels: those win every collision. */
  lemma ClusterTargetLabels(workspaceId: string, providerId: string, project: string, c: Cluster, parse: VersionParser)
    requires ClusterToTarget(workspaceId, providerId, project, c, parse).Ok?
    ensures var labels := ClusterToTarget(workspaceId, providerId, project, c, parse).value.labels;
            var rl := c.resourceLabels.GetOr(map[]);
            var computed := ComputedLabels(project, c, parse(MasterVersionText(c)).value, parse(NodeVersionText(c)).value);
            && (forall k :: k in rl ==> k in labels && labels[k] == rl[k])
            && (forall k :: k in computed && computed[k].Some? && k !in rl ==> k in labels && labels[k] == computed[k].value)
            && (forall k :: k in labels ==> k in rl || (k in computed && computed[k].Some?))
  {
    ClusterLabelsLayering(project, c, parse(MasterVersionText(c)).value, parse(NodeVersionText(c)).value);
  }

  /** The project and distribution labels are always present unless a resource label replaces them. */
  lemma ProjectAndDistributionLabels(workspaceId: string, providerId: string, project: string, c: Cluster, parse: VersionParser)
    requires ClusterToTarget(workspaceId, providerId, project, c, parse).Ok?
    ensures var labels := ClusterToTarget(workspaceId, providerId, project, c, parse).value.labels;
            var rl := c.resourceLabels.GetOr(map[]);
            && ("google/project" !in rl ==> "google/project" in labels && labels["google/project"] == project)
            && ("kubernetes/distribution" !in rl ==> "kubernetes/distribution" in labels && labels["kubernetes/distribution"] == "gke")
  {
    var master := parse(MasterVersionText(c)).value;
    var node := parse(NodeVersionText(c)).value;
    ProjectAndDistributionEntries(project, c, master, node);
    ClusterTargetLabels(workspaceId, providerId, project, c, parse);
  }

  /** The master version labels hold the decimal components of the parsed master version text. */
  lemma MasterVersionLabels(workspaceId: string, providerId: string, project: string, c: Cluster, parse: VersionParser)
    requires ClusterToTarget(workspaceId, providerId, project, c, parse).Ok?
    ensures var labels := ClusterToTarget(workspaceId, providerId, project, c, parse).value.labels;
            var rl := c.resourceLabels.GetOr(map[]);
            var master := parse(c.currentMasterVersion.GetOr("0")).value;
            && ("kubernetes/master-version" !in rl ==> "kubernetes/master-version" in labels && labels["kubernetes/master-version"] == master.version)
            && ("kubernetes/master-version-major" !in rl ==> "kubernetes/master-version-major" in labels && labels["kubernetes/master-version-major"] == NatToString(master.major))
            && ("kubernetes/master-version-minor" !in rl ==> "kubernetes/master-version-minor" in labels && labels["kubernetes/master-version-minor"] == NatToString(master.minor))
            && ("kubernetes/master-version-patch" !in rl ==> "kubernetes/master-version-patch" in labels && labels["kubernetes/master-version-patch"] == NatToString(master.patch))
  {
    var master := parse(MasterVersionText(c)).value;
    var node := parse(NodeVersionText(c)).value;
    MasterVersionEntries(project, c, master, node);
    ClusterTargetLabels(workspaceId, providerId, project, c, parse);
  }

  /** The node version labels hold the decimal components of the parsed node version text,
      parsed independently of the master version. */
  lemma NodeVersionLabels(workspaceId: string, providerId: string, project: string, c: Cluster, parse: VersionParser)
    requires ClusterToTarget(workspaceId, providerId, project, c, parse).Ok?
    ensures var labels := ClusterToTarget(workspaceId, providerId, project, c, parse).value.labels;
            var rl := c.resourceLabels.GetOr(map[]);
            var node := parse(c.currentNodeVersion.GetOr("0")).value;
            && ("kubernetes/node-version" !in rl ==> "kubernetes/node-version" in labels && labels["kubernetes/node-version"] == node.version)
            && ("kubernetes/node-version-major" !in rl ==> "kubernetes/node-version-major" in labels && labels["kubernetes/node-version-major"] == NatToString(node.major))
            && ("kubernetes/node-version-minor" !in rl ==> "kubernetes/node-version-minor" in labels && labels["kubernetes/node-version-minor"] == NatToString(node.minor))
            && ("kubernetes/node-version-patch" !in rl ==> "kubernetes/node-version-patch" in labels && labels["kubernetes/node-version-patch"] == NatToString(node.patch))
  {
    var master := parse(MasterVersionText(c)).value;
    var node := parse(NodeVersionText(c)).value;
    NodeVersionEntries(project, c, master, node);
    ClusterTargetLabels(workspaceId, providerId, project, c, parse);
  }

  /** The namespace's own labels followed by the namespace label, as spread in the overlay object. */
  function NamespaceOverlayLabels(meta: NamespaceMeta): Labels {
    Overlay(meta.labels.GetOr(map[]), map[NamespaceLabel := meta.name])
  }

  /** `_.merge(clusterTarget, overlay)` for one namespace of the cluster. */
  function MergeNamespace(t: Target, project: string, c: Cluster, meta: NamespaceMeta): (r: Target)
    ensures r.kind == NamespaceKind
    ensures r.identifier == project + "/" + Render(c.name) + "/" + meta.name
    ensures r.name == DisplayName(c) + "/" + meta.name
    ensures r.workspaceId == t.workspaceId && r.providerId == t.providerId && r.version == t.version
    ensures r.config == t.config.(namespace := Some(meta.name))
    ensures r.labels == Overlay(Overlay(t.labels, meta.labels.GetOr(map[])), map[NamespaceLabel := meta.name])
    ensures NamespaceLabel in r.labels && r.labels[NamespaceLabel] == meta.name
    ensures forall k :: k in meta.labels.GetOr(map[]) && k != NamespaceLabel ==> r.labels[k] == meta.labels.value[k]
    ensures forall k :: k in t.labels && k !in meta.labels.GetOr(map[]) && k != NamespaceLabel ==> r.labels[k] == t.labels[k]
    ensures r.labels.Keys == t.labels.Keys + meta.labels.GetOr(map[]).Keys + {NamespaceLabel}
  {
    OverlayAssociative(t.labels, meta.labels.GetOr(map[]), map[NamespaceLabel := meta.name]);
    t.(
      name := DisplayName(c) + "/" + meta.name,
      kind := NamespaceKind,
      identifier := project + "/" + Render(c.name) + "/" + meta.name,
      config := t.config.(namespace := Some(meta.name)),
      labels := Overlay(t.labels, NamespaceOverlayLabels(meta)))
  }
}

=== FILE: gke_scan.dfy ===
/** The combination logic of a GKE scan, with every call to Google or Kubernetes
    replaced by its settled result, supplied as input:
    - the listing of each configured project, fulfilled with its clusters or rejected;
    - for each cluster, the connection attempt, and when connected, the namespace listing.

    Rejected project listings are dropped; every cluster of a fulfilled listing yields
    one cluster target; a failed namespace listing yields no namespace targets for that
    cluster; a failed connection rejects the whole scan, because the connection is made
    outside the guarded block.
 */
module GkeScan {
  import opened Outcomes
  import opened Gke

  datatype Connection = ConnectFailed | Connected(namespaces: Outcome<seq<Namespace>>)
  datatype ClusterProbe = ClusterProbe(cluster: Cluster, connection: Connection)
  datatype ProjectScan = ProjectScan(project: string, listing: Outcome<seq<ClusterProbe>>)
  datatype ProjectClusters = ProjectClusters(project: string, clusters: seq<ClusterProbe>)
  /** A cluster together with the project it was listed under. */
  datatype Located = Located(project: string, probe: ClusterProbe)

  /** How many clusters the fulfilled project listings hold together. */
  function ListedCount(scans: seq<ProjectScan>): nat {
    if scans == [] then 0
    else (if scans[0].listing.Ok? then |scans[0].listing.value| else 0) + ListedCount(scans[1..])
  }

  /** How many clusters the listings hold together. */
  function ClusterCount(pcs: seq<ProjectClusters>): nat {
    if pcs == [] then 0 else |pcs[0].clusters| + ClusterCount(pcs[1..])
  }

  /** Keep the fulfilled project listings, in order. */
  function Fulfilled(scans: seq<ProjectScan>): (r: seq<ProjectClusters>)
    ensures |r| <= |scans|
    ensures ClusterCount(r) == ListedCount(scans)
    ensures forall i :: 0 <= i < |scans| && scans[i].listing.Ok? ==> ProjectClusters(scans[i].project, scans[i].listing.value) in r
    ensures forall pc :: pc in r ==> ProjectScan(pc.project, Ok(pc.clusters)) in scans
  {
    if scans == [] then []
    else if scans[0].listing.Ok? then [ProjectClusters(scans[0].project, scans[0].listing.value)] + Fulfilled(scans[1..])
    else Fulfilled(scans[1..])
  }

  lemma {:induction false} FulfilledAppend(a: seq<ProjectScan>, b: seq<ProjectScan>)
    ensures Fulfilled(a + b) == Fulfilled(a) + Fulfilled(b)
  {
    if a != [] {
      assert (a + b)[0] == a[0];
      assert (a + b)[1..] == a[1..] + b;
      FulfilledAppend(a[1..], b);
    } else {
      assert a + b == b;
    }
  }

  /** The clusters of one listing, each paired with the listing's project. */
  function Locate(pc: ProjectClusters): (r: seq<Located>)
    ensures |r| == |pc.clusters|
    ensures forall j :: 0 <= j < |r| ==> r[j] == Located(pc.project, pc.clusters[j])
  {
    seq(|pc.clusters|, j requires 0 <= j < |pc.clusters| => Located(pc.project, pc.clusters[j]))
  }

  /** Every cluster of every listing, paired with its project, counted once per
      occurrence in each listing. */
  function LocatedMultiset(pcs: seq<ProjectClusters>): multiset<Located> {
    if pcs == [] then multiset{} else multiset(Locate(pcs[0])) + LocatedMultiset(pcs[1..])
  }

  /** Every cluster of every listing, paired with its project, in listing order. */
  function Flatten(pcs: seq<ProjectClusters>): (r: seq<Located>)
    ensures |r| == ClusterCount(pcs)
    ensures multiset(r) == LocatedMultiset(pcs)
    ensures forall pc, j :: pc in pcs && 0 <= j < |pc.clusters| ==> Located(pc.project, pc.clusters[j]) in r
    ensures forall l :: l in r ==> exists pc :: pc in pcs && pc.project == l.project && l.probe in pc.clusters
  {
    if pcs == [] then []
    else
      var head := Locate(pcs[0]);
      var rest := Flatten(pcs[1..]);
      assert forall pc :: pc in pcs ==> pc == pcs[0] || pc in pcs[1..];
      assert forall j :: 0 <= j < |pcs[0].clusters| ==> head[j] == Located(pcs[0].project, pcs[0].clusters[j]);
      assert forall l :: l in head ==> l.project == pcs[0].project && l.probe in pcs[0].clusters;
      assert forall pc :: pc in pcs[1..] ==> pc in pcs;
      head + rest
  }

  /** The clusters the scan works on: those of the fulfilled listings. */
  function ListedClusters(scans: seq<ProjectScan>): seq<Located> {
    Flatten(Fulfilled(scans))
  }

  /** Every cluster of every fulfilled project listing, paired with its project, counted
      once per occurrence in each listing. */
  function ListedMultiset(scans: seq<ProjectScan>): multiset<Located> {
    if scans == [] then multiset{}
    else
      (if scans[0].listing.Ok? then multiset(Locate(ProjectClusters(scans[0].project, scans[0].listing.value))) else multiset{})
      + ListedMultiset(scans[1..])
  }

  lemma {:induction false} FulfilledLocated(scans: seq<ProjectScan>)
    ensures LocatedMultiset(Fulfilled(scans)) == ListedMultiset(scans)
  {
    if scans != [] {
      FulfilledLocated(scans[1..]);
      if scans[0].listing.Ok? {
        var pc := ProjectClusters(scans[0].project, scans[0].listing.value);
        assert Fulfilled(scans) == [pc] + Fulfilled(scans[1..]);
        assert ([pc] + Fulfilled(scans[1..]))[1..] == Fulfilled(scans[1..]);
      }
    }
  }

  /** The scan works on exactly the clusters of the fulfilled project listings, each as
      often as those listings hold it, so a project listed twice is scanned twice. */
  lemma ListedClustersFromInput(scans: seq<ProjectScan>)
    ensures |ListedClusters(scans)| == ListedCount(scans)
    ensures multiset(ListedClusters(scans)) == ListedMultiset(scans)
    ensures forall l :: l in ListedClusters(scans) <==>
      exists clusters :: ProjectScan(l.project, Ok(clusters)) in scans && l.probe in clusters
  {
    var pcs := Fulfilled(scans);
    FulfilledLocated(scans);
    forall l ensures l in ListedClusters(scans) <==>
      exists clusters :: ProjectScan(l.project, Ok(clusters)) in scans && l.probe in clusters
    {
      if l in ListedClusters(scans) {
        var pc :| pc in pcs && pc.project == l.project && l.probe in pc.clusters;
        assert ProjectScan(pc.project, Ok(pc.clusters)) in scans;
      }
      if exists clusters :: ProjectScan(l.project, Ok(clusters)) in scans && l.probe in clusters {
        var clusters :| ProjectScan(l.project, Ok(clusters)) in scans && l.probe in clusters;
        var i :| 0 <= i < |scans| && scans[i] == ProjectScan(l.project, Ok(clusters));
        assert ProjectClusters(l.project, clusters) in pcs;
        var j :| 0 <= j < |clusters| && clusters[j] == l.probe;
        assert Located(l.project, clusters[j]) in ListedClusters(scans);
      }
    }
  }

  /** Cluster `j` of fulfilled project listing `i` is among the listed clusters. */
  lemma ListedAt(scans: seq<ProjectScan>, i: nat, j: nat)
    requires i < |scans| && scans[i].listing.Ok? && j < |scans[i].listing.value|
    ensures Located(scans[i].project, scans[i].listing.value[j]) in ListedClusters(scans)
  {
    var pc := ProjectClusters(scans[i].project, scans[i].listing.value);
    assert pc in Fulfilled(scans);
    assert Located(pc.project, pc.clusters[j]) in Flatten(Fulfilled(scans));
  }

  /** The cluster targets, one per listed cluster, in order; the first throw rejects the scan. */
  function ClusterTargets(workspaceId: string, providerId: string, parse: VersionParser, listed: seq<Located>): (r: Outcome<seq<Target>>)
    ensures r.Ok? <==> forall i :: 0 <= i < |listed| ==> ClusterToTarget(workspaceId, providerId, listed[i].project, listed[i].probe.cluster, parse).Ok?
    ensures r.Ok? ==> |r.value| == |listed|
    ensures r.Ok? ==> forall i :: 0 <= i < |listed| ==> r.value[i] == ClusterToTarget(workspaceId, providerId, listed[i].project, listed[i].probe.cluster, parse).value
  {
    if listed == [] then Ok([])
    else
      match ClusterToTarget(workspaceId, providerId, listed[0].project, listed[0].probe.cluster, parse)
      case Err => Err
      case Ok(t) =>
        match ClusterTargets(workspaceId, providerId, parse, listed[1..])
        case Err => Err
        case Ok(ts) => Ok([t] + ts)
  }

  /** The namespaces that carry metadata, as their metadata, in listing order. */
  function WithMetadata(namespaces: seq<Namespace>): (r: seq<NamespaceMeta>)
    ensures |r| <= |namespaces|
    ensures forall m :: m in r <==> Namespace(Some(m)) in namespaces
    ensures forall m :: multiset(r)[m] == multiset(namespaces)[Namespace(Some(m))]
  {
    if namespaces == [] then []
    else
      var rest := WithMetadata(namespaces[1..]);
      assert forall n :: n in namespaces <==> n == namespaces[0] || n in namespaces[1..];
      assert namespaces == [namespaces[0]] + namespaces[1..];
      assert multiset(namespaces) == multiset([namespaces[0]]) + multiset(namespaces[1..]);
      match namespaces[0].metadata
      case None => rest
      case Some(m) => [m] + rest
  }

  /** Whether the cluster is skipped before any connection: its name or location is absent. */
  predicate Unaddressable(c: Cluster) {
    c.name.None? || c.location.None?
  }

  /** One namespace target per namespace carrying metadata, in listing order. */
  function MergeAll(t: Target, project: string, c: Cluster, metas: seq<NamespaceMeta>): (r: seq<Target>)
    ensures |r| == |metas|
    ensures forall i :: 0 <= i < |metas| ==> r[i] == MergeNamespace(t, project, c, metas[i])
  {
    if metas == [] then [] else [MergeNamespace(t, project, c, metas[0])] + MergeAll(t, project, c, metas[1..])
  }

  /** The namespace targets of one cluster. `Err` is a rejection that escapes the
      cluster's own task (a failed connection); a failed namespace listing, or a
      throw while building a namespace target, is caught and yields no targets. */
  function ClusterNamespaceTargets(workspaceId: string, providerId: string, parse: VersionParser, l: Located): (r: Outcome<seq<Target>>)
    ensures Unaddressable(l.probe.cluster) ==> r == Ok([])
    ensures r.Err? <==> !Unaddressable(l.probe.cluster) && l.probe.connection.ConnectFailed?
    ensures l.probe.connection == Connected(Err) ==> r == Ok([])
    ensures r.Ok? ==> forall t :: t in r.value ==> t.kind == NamespaceKind
    ensures r.Ok? && r.value != [] ==>
      && l.probe.connection.Connected? && l.probe.connection.namespaces.Ok?
      && ClusterToTarget(workspaceId, providerId, l.project, l.probe.cluster, parse).Ok?
  {
    var c := l.probe.cluster;
    if Unaddressable(c) then Ok([])
    else
      match l.probe.connection
      case ConnectFailed => Err
      case Connected(Err) => Ok([])
      case Connected(Ok(namespaces)) =>
        var metas := WithMetadata(namespaces);
        if metas == [] then Ok([])
        else
          match ClusterToTarget(workspaceId, providerId, l.project, c, parse)
          case Err => Ok([])
          case Ok(t) => Ok(MergeAll(t, l.project, c, metas))
  }

  /** Merging is applied to each namespace and yields nothing else. */
  lemma MergeAllMembers(t: Target, project: string, c: Cluster, metas: seq<NamespaceMeta>)
    ensures forall m :: m in metas ==> MergeNamespace(t, project, c, m) in MergeAll(t, project, c, metas)
    ensures forall x :: x in MergeAll(t, project, c, metas) ==> exists m :: m in metas && x == MergeNamespace(t, project, c, m)
  {
    var r := MergeAll(t, project, c, metas);
    forall m | m in metas
      ensures MergeNamespace(t, project, c, m) in r
    {
      var i :| 0 <= i < |metas| && metas[i] == m;
      assert r[i] == MergeNamespace(t, project, c, m);
    }
    forall x | x in r
      ensures exists m :: m in metas && x == MergeNamespace(t, project, c, m)
    {
      var i :| 0 <= i < |r| && r[i] == x;
      assert metas[i] in metas;
    }
  }

  /** Of a connected cluster whose namespaces were listed, every namespace that carries
      metadata yields its target, and every target comes from such a namespace. */
  lemma ListedNamespacesBecomeTargets(workspaceId: string, providerId: string, parse: VersionParser, l: Located)
    requires !Unaddressable(l.probe.cluster)
    requires l.probe.connection.Connected? && l.probe.connection.namespaces.Ok?
    requires ClusterToTarget(workspaceId, providerId, l.project, l.probe.cluster, parse).Ok?
    ensures var r := ClusterNamespaceTargets(workspaceId, providerId, parse, l);
            var ct := ClusterToTarget(workspaceId, providerId, l.project, l.probe.cluster, parse).value;
            var namespaces := l.probe.connection.namespaces.value;
            && r.Ok?
            && |r.value| == |WithMetadata(namespaces)| <= |namespaces|
            && (forall m :: Namespace(Some(m)) in namespaces ==> MergeNamespace(ct, l.project, l.probe.cluster, m) in r.value)
            && (forall t :: t in r.value ==> exists m :: Namespace(Some(m)) in namespaces && t == MergeNamespace(ct, l.project, l.probe.cluster, m))
  {
    var c := l.probe.cluster;
    var ct := ClusterToTarget(workspaceId, providerId, l.project, c, parse).value;
    var metas := WithMetadata(l.probe.connection.namespaces.value);
    var r := ClusterNamespaceTargets(workspaceId, providerId, parse, l);
    assert r == Ok(MergeAll(ct, l.project, c, metas));
    MergeAllMembers(ct, l.project, c, metas);
  }

  /** How many results the fulfilled tasks hold together. */
  function ResultCount<T>(tasks: seq<Outcome<seq<T>>>): nat {
    if tasks == [] then 0
    else (if tasks[0].Ok? then |tasks[0].value| else 0) + ResultCount(tasks[1..])
  }

  /** The results the fulfilled tasks hold together, counted once per occurrence in each task. */
  function ResultMultiset<T>(tasks: seq<Outcome<seq<T>>>): multiset<T> {
    if tasks == [] then multiset{}
    else (if tasks[0].Ok? then multiset(tasks[0].value) else multiset{}) + ResultMultiset(tasks[1..])
  }

  /** `Promise.all` over settled tasks, flattened: the first rejection rejects the
      whole, otherwise the tasks' results are concatenated in task order. */
  function JoinAll<T>(tasks: seq<Outcome<seq<T>>>): (r: Outcome<seq<T>>)
    ensures r.Ok? <==> forall i :: 0 <= i < |tasks| ==> tasks[i].Ok?
    ensures r.Ok? ==> forall i, x :: 0 <= i < |tasks| && tasks[i].Ok? && x in tasks[i].value ==> x in r.value
    ensures r.Ok? ==> forall x :: x in r.value ==> exists i :: 0 <= i < |tasks| && tasks[i].Ok? && x in tasks[i].value
    ensures r.Ok? ==> |r.value| == ResultCount(tasks)
    ensures r.Ok? ==> multiset(r.value) == ResultMultiset(tasks)
  {
    if tasks == [] then Ok([])
    else
      match tasks[0]
      case Err => Err
      case Ok(first) =>
        match JoinAll(tasks[1..])
        case Err => Err
        case Ok(rest) =>
          assert forall i :: 1 <= i < |tasks| ==> tasks[i] == tasks[1..][i - 1];
          Ok(first + rest)
  }

  /** Every cluster's namespace task, in listing order. */
  function NamespaceTasks(workspaceId: string, providerId: string, parse: VersionParser, listed: seq<Located>): (tasks: seq<Outcome<seq<Target>>>)
    ensures |tasks| == |listed|
    ensures forall i :: 0 <= i < |listed| ==> tasks[i] == ClusterNamespaceTargets(workspaceId, providerId, parse, listed[i])
  {
    seq(|listed|, i requires 0 <= i < |listed| => ClusterNamespaceTargets(workspaceId, providerId, parse, listed[i]))
  }

  /** `Promise.all` over every cluster's task, flattened: one rejection rejects all. */
  function NamespaceTargets(workspaceId: string, providerId: string, parse: VersionParser, listed: seq<Located>): (r: Outcome<seq<Target>>)
    ensures r.Ok? <==> forall i :: 0 <= i < |listed| ==> ClusterNamespaceTargets(workspaceId, providerId, parse, listed[i]).Ok?
    ensures r.Ok? ==> forall t :: t in r.value ==> t.kind == NamespaceKind
    ensures r.Ok? ==> forall l, t :: l in listed && t in ClusterNamespaceTargets(workspaceId, providerId, parse, l).value ==> t in r.value
    ensures r.Ok? ==> forall t :: t in r.value ==> exists l :: l in listed && t in ClusterNamespaceTargets(workspaceId, providerId, parse, l).value
    ensures r.Ok? ==> |r.value| == ResultCount(NamespaceTasks(workspaceId, providerId, parse, listed))
    ensures r.Ok? ==> multiset(r.value) == ResultMultiset(NamespaceTasks(workspaceId, providerId, parse, listed))
  {
    var tasks := NamespaceTasks(workspaceId, providerId, parse, listed);
    var r := JoinAll(tasks);
    assert r.Ok? ==> forall l :: l in listed ==> ClusterNamespaceTargets(workspaceId, providerId, parse, l).Ok? by {
      if r.Ok? {
        forall l | l in listed
          ensures ClusterNamespaceTargets(workspaceId, providerId, parse, l).Ok?
        {
          var i :| 0 <= i < |listed| && listed[i] == l;
          assert tasks[i].Ok?;
        }
      }
    }
    assert r.Ok? ==> forall l, t :: l in listed && t in ClusterNamespaceTargets(workspaceId, providerId, parse, l).value ==> t in r.value by {
      if r.Ok? {
        forall l, t | l in listed && t in ClusterNamespaceTargets(workspaceId, providerId, parse, l).value
          ensures t in r.value
        {
          var i :| 0 <= i < |listed| && listed[i] == l;
          assert t in tasks[i].value;
        }
      }
    }
    assert r.Ok? ==> forall t :: t in r.value ==> exists l :: l in listed && t in ClusterNamespaceTargets(workspaceId, providerId, parse, l).value by {
      if r.Ok? {
        forall t | t in r.value
          ensures exists l :: l in listed && t in ClusterNamespaceTargets(workspaceId, providerId, parse, l).value
        {
          var i :| 0 <= i < |tasks| && tasks[i].Ok? && t in tasks[i].value;
          assert listed[i] in listed;
        }
      }
    }
    r
  }

  /** `getGkeTargets`: all cluster targets, then all namespace targets. */
  function GkeTargets(workspaceId: string, providerId: string, parse: VersionParser, scans: seq<ProjectScan>): (r: Outcome<seq<Target>>)
    ensures var listed := ListedClusters(scans);
            r.Ok? <==>
              && ClusterTargets(workspaceId, providerId, parse, listed).Ok?
              && NamespaceTargets(workspaceId, providerId, parse, listed).Ok?
    ensures var listed := ListedClusters(scans);
            r.Ok? ==>
              && |listed| <= |r.value|
              && r.value[..|listed|] == ClusterTargets(workspaceId, providerId, parse, listed).value
              && r.value[|listed|..] == NamespaceTargets(workspaceId, providerId, parse, listed).value
  {
    var listed := ListedClusters(scans);
    match ClusterTargets(workspaceId, providerId, parse, listed)
    case Err => Err
    case Ok(apiTargets) =>
      match NamespaceTargets(workspaceId, providerId, parse, listed)
      case Err => Err
      case Ok(namespaceTargets) =>
        var r := apiTargets + namespaceTargets;
        assert r[..|listed|] == apiTargets;
        assert r[|listed|..] == namespaceTargets;
        Ok(r)
  }

  /** A successful scan parsed every listed cluster's versions and connected to every
      listed cluster that has a name and a location. */
  lemma ScanSuccessNeedsAll(workspaceId: string, providerId: string, parse: VersionParser, scans: seq<ProjectScan>)
    requires GkeTargets(workspaceId, providerId, parse, scans).Ok?
    ensures forall l :: l in ListedClusters(scans) ==>
              parse(MasterVersionText(l.probe.cluster)).Some? && parse(NodeVersionText(l.probe.cluster)).Some?
    ensures forall l :: l in ListedClusters(scans) && !Unaddressable(l.probe.cluster) ==> l.probe.connection.Connected?
  {
    var listed := ListedClusters(scans);
    forall l | l in listed
      ensures parse(MasterVersionText(l.probe.cluster)).Some? && parse(NodeVersionText(l.probe.cluster)).Some?
      ensures !Unaddressable(l.probe.cluster) ==> l.probe.connection.Connected?
    {
      var i :| 0 <= i < |listed| && listed[i] == l;
      assert ClusterToTarget(workspaceId, providerId, listed[i].project, listed[i].probe.cluster, parse).Ok?;
      assert ClusterNamespaceTargets(workspaceId, providerId, parse, listed[i]).Ok?;
    }
  }

  /** When every listed cluster's versions parse and every addressable one was connected
      to, the scan succeeds. */
  lemma ScanSuccessFromAll(workspaceId: string, providerId: string, parse: VersionParser, scans: seq<ProjectScan>)
    requires forall l :: l in ListedClusters(scans) ==>
               parse(MasterVersionText(l.probe.cluster)).Some? && parse(NodeVersionText(l.probe.cluster)).Some?
    requires forall l :: l in ListedClusters(scans) && !Unaddressable(l.probe.cluster) ==> l.probe.connection.Connected?
    ensures GkeTargets(workspaceId, providerId, parse, scans).Ok?
  {
    var listed := ListedClusters(scans);
    forall i | 0 <= i < |listed|
      ensures ClusterToTarget(workspaceId, providerId, listed[i].project, listed[i].probe.cluster, parse).Ok?
      ensures ClusterNamespaceTargets(workspaceId, providerId, parse, listed[i]).Ok?
    {
      assert listed[i] in listed;
    }
  }

  /** The scan succeeds exactly when both version texts of every listed cluster parse
      and every listed cluster that has a name and a location could be connected to;
      failed project listings and failed namespace listings never make it fail. */
  lemma ScanSucceedsIff(workspaceId: string, providerId: string, parse: VersionParser, scans: seq<ProjectScan>)
    ensures var listed := ListedClusters(scans);
            GkeTargets(workspaceId, providerId, parse, scans).Ok? <==>
              && (forall l :: l in listed ==>
                    parse(MasterVersionText(l.probe.cluster)).Some? && parse(NodeVersionText(l.probe.cluster)).Some?)
              && (forall l :: l in listed && !Unaddressable(l.probe.cluster) ==> l.probe.connection.Connected?)
  {
    var listed := ListedClusters(scans);
    if GkeTargets(workspaceId, providerId, parse, scans).Ok? {
      ScanSuccessNeedsAll(workspaceId, providerId, parse, scans);
    } else if && (forall l :: l in listed ==>
                    parse(MasterVersionText(l.probe.cluster)).Some? && parse(NodeVersionText(l.probe.cluster)).Some?)
              && (forall l :: l in listed && !Unaddressable(l.probe.cluster) ==> l.probe.connection.Connected?) {
      ScanSuccessFromAll(workspaceId, providerId, parse, scans);
    }
  }

  /** The output lists the cluster targets first, one per listed cluster in listing order,
      then the namespace targets, and nothing but cluster targets precedes the boundary. */
  lemma ClusterTargetsFirst(workspaceId: string, providerId: string, parse: VersionParser, scans: seq<ProjectScan>)
    requires GkeTargets(workspaceId, providerId, parse, scans).Ok?
    ensures var listed := ListedClusters(scans);
            var r := GkeTargets(workspaceId, providerId, parse, scans).value;
            && |listed| <= |r|
            && |listed| == ListedCount(scans)
            && (forall k :: 0 <= k < |listed| ==>
                  r[k].kind == ApiKind
                  && r[k].identifier == listed[k].project + "/" + Render(listed[k].probe.cluster.name))
            && (forall k :: 0 <= k < |r| ==> (r[k].kind == ApiKind <==> k < |listed|))
  {
    var listed := ListedClusters(scans);
    var r := GkeTargets(workspaceId, providerId, parse, scans).value;
    var ns := NamespaceTargets(workspaceId, providerId, parse, listed).value;
    ListedClustersFromInput(scans);
    forall k | 0 <= k < |r|
      ensures k < |listed| ==> r[k].kind == ApiKind && r[k].identifier == listed[k].project + "/" + Render(listed[k].probe.cluster.name)
      ensures k >= |listed| ==> r[k].kind == NamespaceKind
    {
      if k < |listed| {
        assert r[k] == r[..|listed|][k];
      } else {
        assert r[k] == ns[k - |listed|];
        assert r[k] in ns;
      }
    }
  }

  /** A project whose listing was rejected contributes nothing: the scan is the same without it. */
  lemma FailedProjectContributesNothing(workspaceId: string, providerId: string, parse: VersionParser,
                                        before: seq<ProjectScan>, failed: ProjectScan, after: seq<ProjectScan>)
    requires failed.listing.Err?
    ensures GkeTargets(workspaceId, providerId, parse, before + [failed] + after)
         == GkeTargets(workspaceId, providerId, parse, before + after)
  {
    FulfilledAppend(before + [failed], after);
    FulfilledAppend(before, [failed]);
    FulfilledAppend(before, after);
    assert [failed][1..] == [];
    assert Fulfilled([failed]) == [];
    assert Fulfilled(before + [failed]) == Fulfilled(before);
    assert Fulfilled(before + [failed] + after) == Fulfilled(before + after);
  }

  /** Every cluster of every fulfilled project listing yields its cluster target,
      whatever happened to its namespaces. */
  lemma ClusterTargetEmitted(workspaceId: string, providerId: string, parse: VersionParser, scans: seq<ProjectScan>, i: nat, j: nat)
    requires i < |scans| && scans[i].listing.Ok? && j < |scans[i].listing.value|
    requires GkeTargets(workspaceId, providerId, parse, scans).Ok?
    ensures var r := GkeTargets(workspaceId, providerId, parse, scans).value;
            var c := scans[i].listing.value[j].cluster;
            exists k :: 0 <= k < |r| && r[k].kind == ApiKind && r[k].identifier == scans[i].project + "/" + Render(c.name)
                   && r[k] == ClusterToTarget(workspaceId, providerId, scans[i].project, c, parse).value
  {
    var listed := ListedClusters(scans);
    var r := GkeTargets(workspaceId, providerId, parse, scans).value;
    var clusterTargets := ClusterTargets(workspaceId, providerId, parse, listed).value;
    var l := Located(scans[i].project, scans[i].listing.value[j]);
    ListedAt(scans, i, j);
    var k :| 0 <= k < |listed| && listed[k] == l;
    assert r[k] == r[..|listed|][k] == clusterTargets[k];
    assert clusterTargets[k] == ClusterToTarget(workspaceId, providerId, l.project, l.probe.cluster, parse).value;
  }

  /** A failed connection to a cluster that has a name and a location is not absorbed:
      it rejects the whole scan. */
  lemma ConnectionFailureRejectsScan(workspaceId: string, providerId: string, parse: VersionParser, scans: seq<ProjectScan>, i: nat, j: nat)
    requires i < |scans| && scans[i].listing.Ok? && j < |scans[i].listing.value|
    requires !Unaddressable(scans[i].listing.value[j].cluster)
    requires scans[i].listing.value[j].connection.ConnectFailed?
    ensures GkeTargets(workspaceId, providerId, parse, scans).Err?
  {
    ListedAt(scans, i, j);
    ScanSucceedsIff(workspaceId, providerId, parse, scans);
  }

  /** Every namespace that carries metadata, of a connected cluster whose namespace listing
      succeeded, yields its namespace target after the cluster targets. */
  lemma NamespaceTargetEmitted(workspaceId: string, providerId: string, parse: VersionParser, scans: seq<ProjectScan>,
                               i: nat, j: nat, m: NamespaceMeta)
    requires i < |scans| && scans[i].listing.Ok? && j < |scans[i].listing.value|
    requires !Unaddressable(scans[i].listing.value[j].cluster)
    requires scans[i].listing.value[j].connection.Connected?
    requires scans[i].listing.value[j].connection.namespaces.Ok?
    requires Namespace(Some(m)) in scans[i].listing.value[j].connection.namespaces.value
    requires GkeTargets(workspaceId, providerId, parse, scans).Ok?
    ensures var r := GkeTargets(workspaceId, providerId, parse, scans).value;
            var c := scans[i].listing.value[j].cluster;
            var ct := ClusterToTarget(workspaceId, providerId, scans[i].project, c, parse);
            && ct.Ok?
            && MergeNamespace(ct.value, scans[i].project, c, m) in r[|ListedClusters(scans)|..]
  {
    var l := Located(scans[i].project, scans[i].listing.value[j]);
    ListedAt(scans, i, j);
    ScanSucceedsIff(workspaceId, providerId, parse, scans);
    ListedNamespacesBecomeTargets(workspaceId, providerId, parse, l);
  }

  /** Nothing else follows the cluster targets: every namespace target comes from a namespace
      with metadata of a fulfilled project's cluster that has a name and a location, was
      connected to, and had its namespaces listed. So a cluster without a name or location,
      or whose namespace listing failed, and a namespace without metadata, yield none. */
  lemma NamespaceTargetOrigin(workspaceId: string, providerId: string, parse: VersionParser, scans: seq<ProjectScan>, t: Target)
    requires GkeTargets(workspaceId, providerId, parse, scans).Ok?
    requires t in GkeTargets(workspaceId, providerId, parse, scans).value[|ListedClusters(scans)|..]
    ensures exists l, m ::
      && l in ListedClusters(scans)
      && (exists clusters :: ProjectScan(l.project, Ok(clusters)) in scans && l.probe in clusters)
      && !Unaddressable(l.probe.cluster)
      && l.probe.connection.Connected? && l.probe.connection.namespaces.Ok?
      && Namespace(Some(m)) in l.probe.connection.namespaces.value
      && ClusterToTarget(workspaceId, providerId, l.project, l.probe.cluster, parse).Ok?
      && t == MergeNamespace(ClusterToTarget(workspaceId, providerId, l.project, l.probe.cluster, parse).value, l.project, l.probe.cluster, m)
  {
    var listed := ListedClusters(scans);
    var l :| l in listed && t in ClusterNamespaceTargets(workspaceId, providerId, parse, l).value;
    ListedClustersFromInput(scans);
    ListedNamespacesBecomeTargets(workspaceId, providerId, parse, l);
    var m :| Namespace(Some(m)) in l.probe.connection.namespaces.value
             && t == MergeNamespace(ClusterToTarget(workspaceId, providerId, l.project, l.probe.cluster, parse).value, l.project, l.probe.cluster, m);
  }
}

=== FILE: labels.dfy ===
/** Target labels: a finite map from label key to scalar string value.

    Two operations of the source act on label maps: an object spread or a lodash
    `merge` of two label objects (the right operand wins on a shared key, because
    label values are scalar strings), and `omitNullUndefined`, which drops the
    entries whose value is absent.
 */
module Labels {
  import opened Outcomes

  type Labels = map<string, string>

  /** Right-biased overlay: `{...base, ...top}`. */
  function Overlay(base: Labels, top: Labels): (r: Labels)
    ensures r.Keys == base.Keys + top.Keys
    ensures forall k :: k in top ==> r[k] == top[k]
    ensures forall k :: k in base && k !in top ==> r[k] == base[k]
  {
    base + top
  }

  /** `omitNullUndefined`: keep exactly the entries that carry a value. */
  function OmitAbsent(m: map<string, Option<string>>): (r: Labels)
    ensures forall k :: k in r <==> k in m && m[k].Some?
    ensures forall k :: k in r ==> m[k] == Some(r[k])
  {
    map k | k in m && m[k].Some? :: m[k].value
  }

  /** A label map seen as an object whose every entry is present. */
  function Present(m: Labels): (r: map<string, Option<string>>)
    ensures r.Keys == m.Keys
    ensures forall k :: k in m ==> r[k] == Some(m[k])
  {
    map k | k in m :: Some(m[k])
  }

  /** Spreading present labels after possibly-absent computed entries and then
      dropping the absent ones is the same as dropping first and overlaying after:
      a label from `top` survives even where the computed entry was absent. */
  lemma OmitAbsentOverlay(computed: map<string, Option<string>>, top: Labels)
    ensures OmitAbsent(computed + Present(top)) == Overlay(OmitAbsent(computed), top)
  {
    var lhs := OmitAbsent(computed + Present(top));
    var rhs := Overlay(OmitAbsent(computed), top);
    assert forall k :: k in lhs <==> k in rhs;
    assert forall k :: k in lhs ==> lhs[k] == rhs[k];
  }

  /** Overlaying in two steps is overlaying the combined top layer. */
  lemma OverlayAssociative(a: Labels, b: Labels, c: Labels)
    ensures Overlay(Overlay(a, b), c) == Overlay(a, Overlay(b, c))
  {
  }
}

=== FILE: outcomes.dfy ===
/** Optional values and success/failure outcomes.

    `Option` stands for the source's nullable or optional fields (`T | null | undefined`),
    `Outcome` for a settled promise: either it was fulfilled with a value or it was
    rejected (the rejection reason is never inspected by the modelled code, so it is
    not carried).
 */
module Outcomes {

  datatype Option<+T> = None | Some(value: T) {

    /** The value, or `default` when absent: the source's `x ?? default`. */
    function GetOr(default: T): T {
      match this
      case Some(v) => v
      case None => default
    }
  }

  datatype Outcome<+T> = Ok(value: T) | Err
}

=== FILE: policy_gate.dfy ===
/** The approval gate: for a batch of job configurations, the distinct
    (release, policy) pairs that need a manual approval, and the approval rows
    inserted for them.

    The store's tables are sequences of rows. The query joins each release job
    trigger to its release, its environment and that environment's policy, keeps
    the rows whose environment is not deleted and whose policy requires manual
    approval, restricts them to the releases the job configurations name, and
    returns each (release id, policy id) pair once. Existing approvals are not read.
 */
module PolicyGate {
  import opened Outcomes

  datatype JobConfig = JobConfig(releaseId: Option<string>)
  datatype ReleaseJobTrigger = ReleaseJobTrigger(releaseId: string, environmentId: string)
  datatype Release = Release(id: string)
  /** `deletedAt` is a timestamp; only whether it is set matters here. */
  datatype Environment = Environment(id: string, policyId: Option<string>, deletedAt: Option<int>)
  datatype ApprovalRequirement = Manual | Automatic
  datatype EnvironmentPolicy = EnvironmentPolicy(id: string, approvalRequirement: ApprovalRequirement)
  datatype Approval = Approval(policyId: string, releaseId: string)

  datatype Store = Store(
    triggers: seq<ReleaseJobTrigger>,
    releases: seq<Release>,
    environments: seq<Environment>,
    policies: seq<EnvironmentPolicy>,
    approvals: seq<Approval>)

  datatype Pair = Pair(releaseId: string, policyId: string)

  predicate Distinct<T(==)>(s: seq<T>) {
    forall i, j :: 0 <= i < j < |s| ==> s[i] != s[j]
  }

  /** `jobConfigs.map(t => t.releaseId).filter(isPresent)`. */
  function RequestedReleaseIds(jobConfigs: seq<JobConfig>): (ids: seq<string>)
    ensures |ids| <= |jobConfigs|
    ensures forall id :: id in ids <==> JobConfig(Some(id)) in jobConfigs
  {
    if jobConfigs == [] then []
    else
      var rest := RequestedReleaseIds(jobConfigs[1..]);
      assert forall jc :: jc in jobConfigs <==> jc == jobConfigs[0] || jc in jobConfigs[1..];
      match jobConfigs[0].releaseId
      case None => rest
      case Some(id) => [id] + rest
  }

  /** The join condition of one (trigger, release, environment, policy) row. */
  predicate Joins(t: ReleaseJobTrigger, r: Release, e: Environment, p: EnvironmentPolicy) {
    && t.releaseId == r.id
    && t.environmentId == e.id
    && e.deletedAt.None?
    && e.policyId == Some(p.id)
    && p.approvalRequirement == Manual
  }

  /** The pairs one trigger contributes. */
  function TriggerPairs(store: Store, wanted: seq<string>, t: ReleaseJobTrigger): set<Pair> {
    set r, e, p | r in store.releases && e in store.environments && p in store.policies
                  && Joins(t, r, e, p) && r.id in wanted :: Pair(r.id, p.id)
  }

  /** The pairs the first `n` triggers contribute. */
  function PairsUpTo(store: Store, wanted: seq<string>, n: nat): set<Pair>
    requires n <= |store.triggers|
  {
    if n == 0 then {} else PairsUpTo(store, wanted, n - 1) + TriggerPairs(store, wanted, store.triggers[n - 1])
  }

  /** A pair needs approval when some trigger of the store, for a release named by a
      job configuration, reaches through a live environment a manual policy. */
  ghost predicate Qualifies(store: Store, jobConfigs: seq<JobConfig>, pair: Pair) {
    exists t, r, e, p ::
      && t in store.triggers && r in store.releases && e in store.environments && p in store.policies
      && Joins(t, r, e, p)
      && JobConfig(Some(r.id)) in jobConfigs
      && pair == Pair(r.id, p.id)
  }

  lemma {:induction false} PairsUpToQualifies(store: Store, jobConfigs: seq<JobConfig>, n: nat, pair: Pair)
    requires n <= |store.triggers|
    ensures pair in PairsUpTo(store, RequestedReleaseIds(jobConfigs), n) <==>
      exists i :: 0 <= i < n && pair in TriggerPairs(store, RequestedReleaseIds(jobConfigs), store.triggers[i])
  {
    if n > 0 {
      var wanted := RequestedReleaseIds(jobConfigs);
      PairsUpToQualifies(store, jobConfigs, n - 1, pair);
      if pair in TriggerPairs(store, wanted, store.triggers[n - 1]) {
        assert pair in PairsUpTo(store, wanted, n);
      } else if exists i :: 0 <= i < n && pair in TriggerPairs(store, wanted, store.triggers[i]) {
        var i :| 0 <= i < n && pair in TriggerPairs(store, wanted, store.triggers[i]);
        assert i < n - 1;
      }
    }
  }

  /** Gathering the pairs trigger by trigger finds exactly the qualifying pairs. */
  lemma AllPairsQualify(store: Store, jobConfigs: seq<JobConfig>, pair: Pair)
    ensures pair in PairsUpTo(store, RequestedReleaseIds(jobConfigs), |store.triggers|) <==> Qualifies(store, jobConfigs, pair)
  {
    var wanted := RequestedReleaseIds(jobConfigs);
    PairsUpToQualifies(store, jobConfigs, |store.triggers|, pair);
    if Qualifies(store, jobConfigs, pair) {
      var t, r, e, p :| && t in store.triggers && r in store.releases && e in store.environments && p in store.policies
                        && Joins(t, r, e, p) && JobConfig(Some(r.id)) in jobConfigs && pair == Pair(r.id, p.id);
      var i :| 0 <= i < |store.triggers| && store.triggers[i] == t;
      assert pair in TriggerPairs(store, wanted, store.triggers[i]);
    }
  }

  /** The `selectDistinctOn` query: each qualifying (release, policy) pair exactly once. */
  method SelectApprovalPairs(store: Store, jobConfigs: seq<JobConfig>) returns (rows: seq<Pair>)
    ensures Distinct(rows)
    ensures forall pair :: pair in rows <==> Qualifies(store, jobConfigs, pair)
  {
    var wanted := RequestedReleaseIds(jobConfigs);
    rows := [];
    for i := 0 to |store.triggers|
      invariant Distinct(rows)
      invariant forall pair :: pair in rows <==> pair in PairsUpTo(store, wanted, i)
    {
      var pending := TriggerPairs(store, wanted, store.triggers[i]);
      while pending != {}
        invariant pending <= TriggerPairs(store, wanted, store.triggers[i])
        invariant Distinct(rows)
        invariant forall pair :: pair in rows <==>
          pair in PairsUpTo(store, wanted, i) || (pair in TriggerPairs(store, wanted, store.triggers[i]) && pair !in pending)
        decreases pending
      {
        var pair :| pair in pending;
        if pair !in rows {
          rows := rows + [pair];
        }
        pending := pending - {pair};
      }
    }
    forall pair
      ensures pair in rows <==> Qualifies(store, jobConfigs, pair)
    {
      AllPairsQualify(store, jobConfigs, pair);
    }
  }

  /** Whether some policy with this id requires manual approval. */
  ghost predicate ManualPolicy(store: Store, policyId: string) {
    exists p :: p in store.policies && p.id == policyId && p.approvalRequirement == Manual
  }

  /** `createJobExecutionApprovals`: `None` when nothing qualifies (no write), otherwise
      the approval rows to insert, one per qualifying pair. */
  method CreateJobExecutionApprovals(store: Store, jobConfigs: seq<JobConfig>) returns (insert: Option<seq<Approval>>)
    ensures insert.None? <==> forall pair :: !Qualifies(store, jobConfigs, pair)
    ensures insert.Some? ==> |insert.value| > 0 && Distinct(insert.value)
    ensures insert.Some? ==> forall a :: a in insert.value <==> Qualifies(store, jobConfigs, Pair(a.releaseId, a.policyId))
    ensures insert.Some? ==> forall a :: a in insert.value ==> ManualPolicy(store, a.policyId)
  {
    var rows := SelectApprovalPairs(store, jobConfigs);
    if |rows| == 0 {
      return None;
    }
    var approvals := seq(|rows|, i requires 0 <= i < |rows| => Approval(rows[i].policyId, rows[i].releaseId));
    forall a: Approval | Qualifies(store, jobConfigs, Pair(a.releaseId, a.policyId))
      ensures a in approvals
    {
      var i :| 0 <= i < |rows| && rows[i] == Pair(a.releaseId, a.policyId);
      assert approvals[i] == a;
    }
    assert Qualifies(store, jobConfigs, rows[0]);
    insert := Some(approvals);
  }

  /** The store after an insert: the rows are appended to the approvals table. */
  function ApplyInsert(store: Store, insert: Option<seq<Approval>>): (s: Store)
    ensures s.triggers == store.triggers && s.releases == store.releases
    ensures s.environments == store.environments && s.policies == store.policies
    ensures insert.None? ==> s.approvals == store.approvals
    ensures insert.Some? ==> |s.approvals| == |store.approvals| + |insert.value|
    ensures multiset(store.approvals) <= multiset(s.approvals)
    ensures forall a :: multiset(s.approvals)[a]
                     == multiset(store.approvals)[a] + (if insert.Some? then multiset(insert.value)[a] else 0)
  {
    match insert
    case None => store
    case Some(rows) => store.(approvals := store.approvals + rows)
  }

  /** Only releases named by a job configuration count, and a configuration without a
      release changes nothing. */
  lemma NullReleaseIdsIgnored(store: Store, jobConfigs: seq<JobConfig>, pair: Pair)
    ensures Qualifies(store, jobConfigs + [JobConfig(None)], pair) <==> Qualifies(store, jobConfigs, pair)
    ensures Qualifies(store, jobConfigs, pair) ==> JobConfig(Some(pair.releaseId)) in jobConfigs
  {
    assert forall jc :: jc in jobConfigs + [JobConfig(None)] <==> jc in jobConfigs || jc == JobConfig(None);
  }

  /** The query ignores the approvals table, so after an insert the same rows qualify
      again: a second call with the same input inserts them a second time. */
  lemma RepeatedCallReinserts(store: Store, jobConfigs: seq<JobConfig>, rows: seq<Approval>, a: Approval)
    requires a in rows
    ensures forall pair :: Qualifies(ApplyInsert(store, Some(rows)), jobConfigs, pair) <==> Qualifies(store, jobConfigs, pair)
    ensures multiset(ApplyInsert(ApplyInsert(store, Some(rows)), Some(rows)).approvals)[a]
         >= multiset(store.approvals)[a] + 2
  {
    var once := ApplyInsert(store, Some(rows));
    var twice := ApplyInsert(once, Some(rows));
    assert twice.approvals == store.approvals + rows + rows;
    assert multiset(rows)[a] >= 1;
  }

  /** Two calls with the same input, the second after the first's insert has been
      applied: the second inserts exactly the rows the first did, so every such row is
      then held at least twice. Creating approvals is not idempotent. */
  method RepeatedCall(store: Store, jobConfigs: seq<JobConfig>) returns (first: Option<seq<Approval>>, second: Option<seq<Approval>>)
    ensures first.Some? <==> second.Some?
    ensures first.Some? ==> forall a :: a in first.value <==> a in second.value
    ensures first.Some? ==> forall a :: a in first.value ==>
      multiset(ApplyInsert(ApplyInsert(store, first), second).approvals)[a] >= multiset(store.approvals)[a] + 2
  {
    first := CreateJobExecutionApprovals(store, jobConfigs);
    var after := ApplyInsert(store, first);
    second := CreateJobExecutionApprovals(after, jobConfigs);
    if first.Some? {
      var a0 := first.value[0];
      RepeatedCallReinserts(store, jobConfigs, first.value, a0);
      assert Qualifies(after, jobConfigs, Pair(a0.releaseId, a0.policyId));
      forall a | a in first.value
        ensures multiset(ApplyInsert(after, second).approvals)[a] >= multiset(store.approvals)[a] + 2
      {
        assert multiset(first.value)[a] >= 1;
        assert a in second.value;
        assert multiset(second.value)[a] >= 1;
      }
    } else {
      assert after == store;
    }
  }
}
